=== FILE: README.md ===
# gh-autocomplete core, modelled in Dafny

This project models the core of a GitHub search autocomplete widget. It has two parts.

- **The autocomplete state machine** of the `useAutocomplete` hook. This is its reducer over
  `value`, `status`, `error`, `searchResults` and `selectedItemIndex`, and the wrap-around index
  arithmetic for ArrowDown, ArrowUp and Enter. It also covers the hook's decisions around the
  reducer: which key codes it handles, what a key press does, the minimum-length guard, the
  LOADING → SUCCESS/ERROR cycle the timer callback dispatches, the `isLoading`/`isSuccess`/`isError`
  flags and the highlighted list position.
- **The search service** `searchGitHub`. It maps raw user and repository items to tagged results,
  joins them users first, and fails as a whole when either sub-search fails.

Modules:

| file | module | contents |
|---|---|---|
| wrappers.dfy | `Wrappers` | `Option` (for `null`/`undefined`) and `Result` (a settled promise) |
| decimal.dfy | `Decimal` | `id.toString()` for integer ids, a parser that accepts only that printed form, the round trips |
| name_order.dfy | `NameOrder` | lexicographic name order standing in for `localeCompare`, proved a total order |
| search_result.dfy | `SearchResults` | the tagged `SearchResult` |
| sorting.dfy | `Sorting` | stable insertion sort by name: sorted, a permutation, ties in input order |
| js_string.dfy | `JsString` | a string's length in UTF-16 code units, as JavaScript's `.length` counts it |
| github_search.dfy | `GithubSearch` | item mapping, the two sub-searches for one query, the fail-fast join |
| autocomplete.dfy | `Autocomplete` | state, actions, index arithmetic, reducer, action runs |
| hook.dfy | `AutocompleteHook` | key handling, min-length guard, search cycle, flags, highlighting |
| index_validity.dfy | `IndexValidity` | two ways the index leaves the list, and the corrected reducer |
| end_to_end.dfy | `EndToEnd` | the repository's end-to-end test as lemmas |

Several behaviours are modelled exactly as the code does them:

- With an empty list and no selection, ArrowDown selects 0 and ArrowUp selects -1. Away from the
  last and the first position the arrows step by one without wrapping, so an index off the list
  drifts further off with each press. So `selectedItemIndex` is an
  `Option<int>`.
- SEARCH_SUCCESS keeps `selectedItemIndex`.
- Clearing the input keeps `error`.
- There is no hover handler, so nothing sets the index directly.
- Without an `onSelect` callback, Enter does nothing: the code calls `onSelect?.(…)` and has no
  fill-in fallback.
- The minimum length is compared with `value.length`, which counts UTF-16 code units, so a
  character outside the Basic Multilingual Plane counts twice.

The two index behaviours are listed under Findings.

The end-to-end test expects the selected user's page to be opened. `GhAutocomplete.tsx` as written
passes no `onSelect`. The model ends where the chosen item is handed to `onSelect`.

## Model

| member | source | states |
|---|---|---|
| `AutocompleteHook.ParseNavigationCode` | src/components/GhAutocomplete/useAutocomplete.ts:4-14 | a code names a navigation key exactly when it is one of ArrowDown, ArrowUp, Enter, and the key's code is that code |
| `AutocompleteHook.KeyCodeRoundTrip` | src/components/GhAutocomplete/useAutocomplete.ts:4-14 | every navigation key's code is allowed and parses back to the same key |
| `Autocomplete.SelectedItemIndexAfter` | src/components/GhAutocomplete/useAutocomplete.ts:54-70 | Enter gives no index and the arrows always give one; on a non-empty list with a valid index, ArrowDown gives 0 from nothing, otherwise (i+1) mod n; ArrowUp gives n-1 from nothing, otherwise (i-1) mod n; the result stays in range; on an empty list from no selection ArrowDown gives 0 and ArrowUp gives -1; from any index other than the last ArrowDown gives the index plus one, and from any index other than 0 ArrowUp gives the index minus one, in or out of the list |
| `Autocomplete.ArrowKeysAreInverse` | src/components/GhAutocomplete/useAutocomplete.ts:59-68 | on a non-empty list ArrowUp undoes ArrowDown and ArrowDown undoes ArrowUp |
| `Autocomplete.ArrowDownCycle` | src/components/GhAutocomplete/useAutocomplete.ts:59-63 | k ArrowDowns from item i select i+k, wrapping once past the end; n of them return to i |
| `Autocomplete.ArrowUpCycle` | src/components/GhAutocomplete/useAutocomplete.ts:64-68 | k ArrowUps from item i select i-k, wrapping once past the start; n of them return to i |
| `Autocomplete.Reduce` | src/components/GhAutocomplete/useAutocomplete.ts:72-123 | each action changes only the fields in its footprint. INPUT_VALUE_CHANGED sets the value; with an empty payload it also resets status, list and index but keeps the error. LOADING sets loading, clears the error and the index. SUCCESS stores a sorted permutation of the payload. ERROR stores the message and clears the list and the index. Navigation sets the index to what the index arithmetic gives for its key, so it clears it exactly for Enter. The index invariant survives every action except SUCCESS and navigation on an empty list; SUCCESS preserves it when no item is selected |
| `Autocomplete.SuccessKeepsTiesInOrder` | src/components/GhAutocomplete/useAutocomplete.ts:94-101 | after SUCCESS, results with equal names are in payload order (the sort is stable) |
| `Autocomplete.ClearingKeepsError` | src/components/GhAutocomplete/useAutocomplete.ts:77-86 | clearing the input sets status initial but leaves an earlier error in place |
| `Sorting.Sort` | src/components/GhAutocomplete/useAutocomplete.ts:98-100 | the sorted list is nondecreasing by name and a permutation of its input |
| `Sorting.SortStable` | src/components/GhAutocomplete/useAutocomplete.ts:98-100 | for every name, the results carrying it appear in the same relative order before and after sorting |
| `AutocompleteHook.ItemAt` | src/components/GhAutocomplete/useAutocomplete.ts:202 | indexing the list yields an item exactly for positions inside it, and that item is listed |
| `AutocompleteHook.KeyDown` | src/components/GhAutocomplete/useAutocomplete.ts:197-207 | codes other than the three keys are ignored; Enter with a selection hands over the selected item, which is the listed item whenever the index is valid and `undefined` otherwise; every other navigation key dispatches SELECTED_ITEM_CHANGED for that key |
| `AutocompleteHook.ApplyKeyDown` | src/components/GhAutocomplete/useAutocomplete.ts:197-207 | a non-navigation code and Enter leave the state unchanged (Enter without a selection dispatches an action that keeps the index null); on a non-empty list the arrows move only the index, with wrap-around, and keep it valid |
| `JsString.Utf16Length` | src/components/GhAutocomplete/useAutocomplete.ts:161 | one character counts 2 code units when astral and 1 otherwise; the length lies between the character count and twice it, is zero only for the empty string, and equals the character count when no character is astral |
| `JsString.Utf16LengthAppend` | src/components/GhAutocomplete/useAutocomplete.ts:161 | the length of a concatenation is the sum of the lengths, so with the one-character case every string's length is the sum over its characters |
| `JsString.MixedLength` | src/components/GhAutocomplete/useAutocomplete.ts:161 | a letter followed by an emoji is three code units |
| `JsString.AstralCharsCountTwice` | src/components/GhAutocomplete/useAutocomplete.ts:161 | two emoji are two characters but four UTF-16 code units |
| `AutocompleteHook.ScheduledQuery` | src/components/GhAutocomplete/useAutocomplete.ts:161-165 | a search is scheduled exactly when the value has at least minSearchLength UTF-16 code units, and it is for that value |
| `AutocompleteHook.AstralInputSchedulesSearch` | src/components/GhAutocomplete/useAutocomplete.ts:161-165 | two emoji, two characters but four code units, reach the default minimum of three and schedule a search |
| `AutocompleteHook.SearchActions` | src/components/GhAutocomplete/useAutocomplete.ts:165-176 | the timer dispatches LOADING, then SUCCESS with the fetched list if the fetch succeeded, otherwise ERROR with the fixed message |
| `AutocompleteHook.SearchEffect` | src/components/GhAutocomplete/useAutocomplete.ts:156-176 | below the minimum length in UTF-16 code units no action follows; otherwise the search cycle follows, for the data fetched for the current value |
| `AutocompleteHook.SearchEffectRuns` | src/components/GhAutocomplete/useAutocomplete.ts:156-176 | running the effect's actions leaves a value shorter than the minimum untouched, and otherwise ends in the search cycle's end state for the data fetched for that value |
| `AutocompleteHook.AfterSearch` | src/components/GhAutocomplete/useAutocomplete.ts:165-176 | from any state a search cycle keeps the value, ends with no selection and the invariant holding, and leaves either success with a sorted permutation of the results and no error, or error with the fixed message and no results |
| `AutocompleteHook.AfterSearchRuns` | src/components/GhAutocomplete/useAutocomplete.ts:165-176 | dispatching the cycle's actions through the reducer gives that end state |
| `AutocompleteHook.Flags` | src/components/GhAutocomplete/useAutocomplete.ts:240-242 | isLoading holds exactly in the loading status, isSuccess exactly in success, isError exactly in error; so at most one holds, and none in the initial status |
| `AutocompleteHook.FlagsThroughSearch` | src/components/GhAutocomplete/useAutocomplete.ts:240-242 | during a search only isLoading holds; afterwards isSuccess holds exactly when the fetch succeeded and isError exactly when it failed |
| `AutocompleteHook.HighlightedPositions` | src/components/GhAutocomplete/useAutocomplete.ts:225-228 | a position is highlighted exactly when it exists in the list and is the selected index; so at most one is, and in a valid state one is exactly when an item is selected |
| `AutocompleteHook.HighlightFollowsArrowDown` | src/components/GhAutocomplete/useAutocomplete.ts:225-228 | on a non-empty list ArrowDown moves the highlight to the first item from nothing, and otherwise to the next item with wrap-around |
| `Decimal.IntToString` | src/components/GhAutocomplete/githubSearchService.ts:18 | the id string parses back to the numeric id; it is all digits exactly for a non-negative id; it has no leading zero except for 0 itself, which prints as "0", and a negative id is '-' followed by a nonzero digit |
| `Decimal.ParseIntCanonical` | src/components/GhAutocomplete/githubSearchService.ts:18 | the parser reads only the printed form: a string that reads back as n is exactly the string printed for n, so a parsed id pins its string |
| `Decimal.LeadingZerosRejected` | src/components/GhAutocomplete/githubSearchService.ts:29 | strings `toString()` never prints, "01", "00", "-0" and "-01", do not read back as ids |
| `Decimal.IntToStringInjective` | src/components/GhAutocomplete/githubSearchService.ts:29 | distinct ids give distinct id strings |
| `GithubSearch.MapUsers` | src/components/GhAutocomplete/githubSearchService.ts:14-23 | same length and order as the items; each result is tagged user, named by login, linked to html_url, with an id that reads back as the item's id, which makes it exactly the id's printed form |
| `GithubSearch.MapRepositories` | src/components/GhAutocomplete/githubSearchService.ts:25-34 | same length and order as the items; each result is tagged repository, named by full_name, linked to html_url, with an id that reads back as the item's id, which makes it exactly the id's printed form |
| `GithubSearch.MapUsersInverse` | src/components/GhAutocomplete/githubSearchService.ts:14-23 | reading the user items back from the mapped results gives the original items, and no repository |
| `GithubSearch.MapRepositoriesInverse` | src/components/GhAutocomplete/githubSearchService.ts:25-34 | reading the repository items back from the mapped results gives the original items, and no user |
| `GithubSearch.SplitJoined` | src/components/GhAutocomplete/githubSearchService.ts:39-43 | splitting the joined list by origin gives back both item lists unchanged |
| `GithubSearch.SearchGitHub` | src/components/GhAutocomplete/githubSearchService.ts:36-44 | both sub-searches are asked for the query: success exactly when both of their answers for it succeed. The list is then exactly the mapped users followed by the mapped repositories: the length is the sum, the first entries are exactly the users, and splitting by origin gives back both item lists. A failure carries the first rejection's reason, with no partial list |
| `GithubSearch.SearchGitHubAsksForQuery` | src/components/GhAutocomplete/githubSearchService.ts:39-42 | the outcome depends on the sub-searches only through their answers for the query |
| `IndexValidity.EmptyListNavigation` | src/components/GhAutocomplete/useAutocomplete.ts:59-68 | with nothing listed and nothing selected, ArrowDown selects 0 and ArrowUp -1; both are invalid, and Enter then hands `undefined` to onSelect |
| `IndexValidity.DownDriftsOffList` | src/components/GhAutocomplete/useAutocomplete.ts:59-63 | from an index at or past the end, k ArrowDowns select that index plus k: the index never wraps back into the list |
| `IndexValidity.UpDriftsOffList` | src/components/GhAutocomplete/useAutocomplete.ts:64-68 | from a negative index, k ArrowUps select that index minus k: the index never wraps back into the list |
| `IndexValidity.EmptyListDrift` | src/components/GhAutocomplete/useAutocomplete.ts:59-68 | on an empty list, two ArrowDowns from no selection give 1 and two ArrowUps give -2 |
| `IndexValidity.StaleIndexAfterSuccess` | src/components/GhAutocomplete/useAutocomplete.ts:94-101 | an ArrowDown pressed while loading selects from the old list; SUCCESS with an empty list keeps that index, which is then invalid, and Enter hands `undefined` to onSelect |
| `IndexValidity.GuardedSelectedItemIndex` | src/components/GhAutocomplete/useAutocomplete.ts:54-70 | the corrected arithmetic keeps a valid index valid on every list, selects nothing on an empty list and agrees with the code otherwise |
| `IndexValidity.ReduceIntended` | src/components/GhAutocomplete/useAutocomplete.ts:72-123 | the corrected reducer keeps the invariant after every action, and differs from the code only on SUCCESS (the index is cleared) and on navigation over an empty list |
| `IndexValidity.IntendedRunKeepsInvariant` | src/components/GhAutocomplete/useAutocomplete.ts:72-123 | under the corrected reducer every action sequence from a valid state ends in a valid state |
| `IndexValidity.IntendedSelectionIsListed` | src/components/GhAutocomplete/useAutocomplete.ts:197-207 | under the corrected reducer, whenever Enter selects from a reachable state, it hands over a listed item |
| `IndexValidity.IntendedAgreesOnSearch` | src/components/GhAutocomplete/useAutocomplete.ts:165-176 | on the timer's LOADING then SUCCESS/ERROR path the corrected and the written reducer reach the same state |
| `EndToEnd.TypedValue` | src/components/GhAutocomplete/GhAutocomplete.test.tsx:53-56 | typing "t", "te", "tes", "test" leaves the value "test" |
| `EndToEnd.TestNamesOrder` | src/components/GhAutocomplete/GhAutocomplete.test.tsx:49 | "test-repo" sorts before "test-user" |
| `EndToEnd.ListedAfterSearch` | src/components/GhAutocomplete/GhAutocomplete.test.tsx:58-74 | on "test" the effect runs one search cycle for "test", listing the repository before the user, with nothing selected |
| `EndToEnd.TwoArrowDownsThenEnter` | src/components/GhAutocomplete/GhAutocomplete.test.tsx:76 | on a two-item list with no selection, two ArrowDowns select index 1 and Enter hands over the second item |
| `EndToEnd.MockedResults` | src/components/GhAutocomplete/GhAutocomplete.test.tsx:27-48 | the search service over the mocked sub-searches returns the user and then the repository for "test" |
| `EndToEnd.SearchAndSelect` | src/components/GhAutocomplete/GhAutocomplete.test.tsx:26-82 | typing "test" schedules a search for "test"; the mocked sub-searches answer only "test" and the search succeeds, so both were asked for "test"; the listing reads test-repo, test-user; two ArrowDowns and Enter hand over the user, whose url is "userpage" |

## Left out

- Debounce timing is not modelled. This covers `setTimeout`/`clearTimeout`, the effect cleanup, the
  300 ms `searchDelay`, async/await, and React re-running the effect when its dependencies change.
  The search is modelled only as the actions it dispatches. The data source is a function
  parameter, and one fetch outcome is one input.
- A response that settles after the input has changed again is not modelled: the ordering of
  timers and promises is runtime behaviour.
- The scroll-into-view effect and the DOM refs are not modelled. They are presentation side
  effects.
- `event.preventDefault()` appears only as the difference between an ignored and a handled key.
- The class names built with `clsx` in `getListItemProps` are left out. Only the highlighted
  position is kept.
- `src/api/github.ts` is not part of this model: URL templating, `per_page`, auth headers and the
  `client` helper. The two search functions are parameters, from the query to their outcome.
- `GhAutocomplete.tsx` and `App.tsx` (rendering) are not modelled.
- The hook is generic over the result type. It is modelled with the one type this repository
  uses, `GithubSearchResult`.
- The reducer's `default` branch is unreachable for well-typed actions and has no counterpart.
- `Sorting.Sort` uses character-code lexicographic order, not the locale collation of
  `localeCompare`, because locale data lies outside the program.
- `Decimal.IntToString`: for magnitudes of 10^21 or more, JavaScript prints ids in exponent
  notation; the model always prints every digit. GitHub ids are far below that.
- `GithubSearch.SearchGitHub`: which rejection `Promise.all` reports when both requests fail
  depends on timing. It is a parameter (`usersRejectFirst`).

## Findings

| source | as written | input that shows it | evidently intended | confidence | as-written member | corrected member |
|---|---|---|---|---|---|---|
| src/components/GhAutocomplete/useAutocomplete.ts:59-68 | on an empty list ArrowDown yields index 0 and ArrowUp yields -1 (`searchResultsLength - 1`) | value "ab" (below the minimum, nothing listed), then ArrowDown and Enter: index 0 of an empty list, `onSelect(undefined)` | navigation on an empty list selects nothing | not executed; high | `IndexValidity.EmptyListNavigation` (on `Autocomplete.SelectedItemIndexAfter`) | `IndexValidity.GuardedSelectedItemIndex` |
| src/components/GhAutocomplete/useAutocomplete.ts:94-101 | SEARCH_SUCCESS replaces `searchResults` but keeps `selectedItemIndex` | two results listed, a new search starts (LOADING clears the index), ArrowDown during loading selects 0 of the old list, the search returns no results: index 0 of an empty list, `onSelect(undefined)` on Enter | a new result list comes with no selection | not executed; medium | `IndexValidity.StaleIndexAfterSuccess` (on `Autocomplete.Reduce`) | `IndexValidity.ReduceIntended` |

`IndexValidity.ReduceIntended` applies both corrections. Under it the invariant holds in every reachable
state (`IndexValidity.IntendedRunKeepsInvariant`), and Enter never hands over a missing item
(`IndexValidity.IntendedSelectionIsListed`). The hook functions and the end-to-end lemmas keep the reducer as
written, because they describe the code. `IndexValidity.IntendedAgreesOnSearch` shows that the two
reducers agree on the search cycle the timer runs.

=== FILE: autocomplete.dfy ===
/**
  The autocomplete state and its reducer: the pure transition function the hook
  hands to React's `useReducer`.
 */
module Autocomplete {
  import opened Wrappers
  import opened SearchResults
  import opened Sorting

  datatype Status = Initial | Loading | Success | Error

  /** The key codes the widget reacts to. */
  datatype NavigationKey = ArrowDown | ArrowUp | Enter

  /**
    `selectedItemIndex` is an unbounded integer, not a natural: on an empty list
    the arithmetic below produces `-1`.
   */
  datatype State = State(
    value: string,
    status: Status,
    error: Option<string>,
    searchResults: seq<SearchResult>,
    selectedItemIndex: Option<int>)

  datatype Action =
    | InputValueChanged(newValue: string)
    | SearchLoading
    | SearchSuccess(payload: seq<SearchResult>)
    | SearchError(message: string)
    | SelectedItemChanged(key: NavigationKey)

  /** The state the hook starts from on mount. */
  const InitialState := State("", Initial, None, [], None)

  /** `index` is absent or points into a list of `length` items. */
  predicate IndexValid(index: Option<int>, length: int) {
    index.None? || 0 <= index.value < length
  }

  /** The invariant every state should keep: the selection points at a listed result. */
  predicate Valid(s: State) {
    IndexValid(s.selectedItemIndex, |s.searchResults|)
  }

  /** Next selection after a navigation key, with wrap-around at both ends. */
  function SelectedItemIndexAfter(key: NavigationKey, prevIndex: Option<int>, length: nat): (r: Option<int>)
    ensures r.None? <==> key == Enter
    ensures key == ArrowDown && length > 0 && IndexValid(prevIndex, length) ==>
      r == Some(if prevIndex.None? then 0 else (prevIndex.value + 1) % length)
    ensures key == ArrowUp && length > 0 && IndexValid(prevIndex, length) ==>
      r == Some(if prevIndex.None? then length - 1 else (prevIndex.value - 1) % length)
    ensures key != Enter && length > 0 && IndexValid(prevIndex, length) ==> IndexValid(r, length)
    ensures length == 0 && key == ArrowDown && (prevIndex.None? || prevIndex.value == -1) ==> r == Some(0)
    ensures length == 0 && key == ArrowUp && (prevIndex.None? || prevIndex.value == 0) ==> r == Some(-1)
    ensures key == ArrowDown && prevIndex.Some? && prevIndex.value != length - 1 ==> r == Some(prevIndex.value + 1)
    ensures key == ArrowUp && prevIndex.Some? && prevIndex.value != 0 ==> r == Some(prevIndex.value - 1)
  {
    match key
    case ArrowDown =>
      if prevIndex.None? || prevIndex.value == length - 1 then Some(0) else Some(prevIndex.value + 1)
    case ArrowUp =>
      if prevIndex.None? || prevIndex.value == 0 then Some(length - 1) else Some(prevIndex.value - 1)
    case Enter => None
  }

  /** ArrowUp undoes ArrowDown and ArrowDown undoes ArrowUp on a non-empty list. */
  lemma ArrowKeysAreInverse(i: int, length: nat)
    requires 0 <= i < length
    ensures SelectedItemIndexAfter(ArrowUp, SelectedItemIndexAfter(ArrowDown, Some(i), length), length) == Some(i)
    ensures SelectedItemIndexAfter(ArrowDown, SelectedItemIndexAfter(ArrowUp, Some(i), length), length) == Some(i)
  {
  }

  /** The selection after pressing `key` `presses` times. */
  function PressRepeatedly(key: NavigationKey, presses: nat, index: Option<int>, length: nat): Option<int> {
    if presses == 0 then index
    else SelectedItemIndexAfter(key, PressRepeatedly(key, presses - 1, index, length), length)
  }

  /** k ArrowDowns from item i select item i + k, wrapping past the end once; n of them return to i. */
  lemma {:induction false} ArrowDownCycle(presses: nat, i: int, length: nat)
    requires 0 <= i < length && presses <= length
    ensures PressRepeatedly(ArrowDown, presses, Some(i), length)
      == Some(if i + presses < length then i + presses else i + presses - length)
  {
    if presses > 0 {
      ArrowDownCycle(presses - 1, i, length);
    }
  }

  /** k ArrowUps from item i select item i - k, wrapping past the start once; n of them return to i. */
  lemma {:induction false} ArrowUpCycle(presses: nat, i: int, length: nat)
    requires 0 <= i < length && presses <= length
    ensures PressRepeatedly(ArrowUp, presses, Some(i), length)
      == Some(if i - presses >= 0 then i - presses else i - presses + length)
  {
    if presses > 0 {
      ArrowUpCycle(presses - 1, i, length);
    }
  }

  /** The fields of a state. */
  datatype Field = ValueField | StatusField | ErrorField | ResultsField | IndexField

  /** The fields in which `s` and `t` differ. */
  function ChangedFields(s: State, t: State): set<Field> {
    (if s.value != t.value then {ValueField} else {})
    + (if s.status != t.status then {StatusField} else {})
    + (if s.error != t.error then {ErrorField} else {})
    + (if s.searchResults != t.searchResults then {ResultsField} else {})
    + (if s.selectedItemIndex != t.selectedItemIndex then {IndexField} else {})
  }

  /** The fields an action may write; every other field keeps its value. */
  function Footprint(a: Action): set<Field> {
    match a
    case InputValueChanged(v) =>
      if |v| == 0 then {ValueField, StatusField, ResultsField, IndexField} else {ValueField}
    case SearchLoading => {StatusField, ErrorField, IndexField}
    case SearchSuccess(_) => {StatusField, ResultsField}
    case SearchError(_) => {StatusField, ErrorField, ResultsField, IndexField}
    case SelectedItemChanged(_) => {IndexField}
  }

  /** `autocompleteReducer`. */
  function Reduce(s: State, a: Action): (r: State)
    ensures ChangedFields(s, r) <= Footprint(a)
    ensures a.InputValueChanged? ==> r.value == a.newValue
    ensures a.InputValueChanged? && |a.newValue| == 0 ==>
      r.status == Initial && r.searchResults == [] && r.selectedItemIndex == None
    ensures a.SearchLoading? ==> r.status == Loading && r.error == None && r.selectedItemIndex == None
    ensures a.SearchSuccess? ==>
      && r.status == Success
      && SortedByName(r.searchResults)
      && multiset(r.searchResults) == multiset(a.payload)
    ensures a.SearchError? ==>
      r.status == Error && r.error == Some(a.message) && r.searchResults == [] && r.selectedItemIndex == None
    ensures a.SelectedItemChanged? ==> (r.selectedItemIndex.None? <==> a.key == Enter)
    ensures a.SelectedItemChanged? ==>
      r == s.(selectedItemIndex := SelectedItemIndexAfter(a.key, s.selectedItemIndex, |s.searchResults|))
    ensures Valid(s) && !a.SearchSuccess? && !(a.SelectedItemChanged? && |s.searchResults| == 0) ==> Valid(r)
    ensures a.SearchSuccess? && s.selectedItemIndex.None? ==> Valid(r)
  {
    match a
    case InputValueChanged(v) =>
      if |v| == 0 then s.(value := v, status := Initial, searchResults := [], selectedItemIndex := None)
      else s.(value := v)
    case SearchLoading => s.(status := Loading, error := None, selectedItemIndex := None)
    case SearchSuccess(payload) => s.(status := Success, searchResults := Sort(payload))
    case SearchError(message) =>
      s.(status := Error, error := Some(message), searchResults := [], selectedItemIndex := None)
    case SelectedItemChanged(key) =>
      s.(selectedItemIndex := SelectedItemIndexAfter(key, s.selectedItemIndex, |s.searchResults|))
  }

  /** Results with equal names stay in the order the search delivered them. */
  lemma SuccessKeepsTiesInOrder(s: State, payload: seq<SearchResult>, name: string)
    ensures WithName(Reduce(s, SearchSuccess(payload)).searchResults, name) == WithName(payload, name)
  {
    SortStable(payload, name);
  }

  /** Clearing the input leaves an earlier error message in place. */
  lemma ClearingKeepsError(s: State)
    ensures Reduce(s, InputValueChanged("")).error == s.error
    ensures Reduce(s, InputValueChanged("")).status == Initial
  {
  }

  /** The state after dispatching `actions` in order. */
  function Run(s: State, actions: seq<Action>): State
    decreases |actions|
  {
    if |actions| == 0 then s else Run(Reduce(s, actions[0]), actions[1..])
  }
}

=== FILE: decimal.dfy ===
/**
  Decimal rendering of integer ids, as `Number.prototype.toString()` prints an
  integer-valued number, together with its inverse.
 */
module Decimal {
  import opened Wrappers

  predicate IsDigit(c: char) {
    '0' <= c <= '9'
  }

  predicate AllDigits(s: string) {
    forall i :: 0 <= i < |s| ==> IsDigit(s[i])
  }

  /** A digit string as `toString()` prints one: no leading zero unless it is "0" itself. */
  predicate Canonical(s: string) {
    |s| > 0 && AllDigits(s) && (s[0] == '0' ==> |s| == 1)
  }

  function DigitChar(d: nat): (c: char)
    requires d < 10
    ensures IsDigit(c)
    ensures DigitValue(c) == d
  {
    (('0' as int) + d) as char
  }

  function DigitValue(c: char): int {
    (c as int) - ('0' as int)
  }

  /** The digits of `n`, most significant first, with no leading zero. */
  function NatToDigits(n: nat): (s: string)
    ensures Canonical(s)
    ensures s[0] == '0' <==> n == 0
    decreases n
  {
    if n < 10 then [DigitChar(n)] else NatToDigits(n / 10) + [DigitChar(n % 10)]
  }

  /** The number a string of decimal digits denotes. */
  function DigitsToNat(s: string): nat
    requires AllDigits(s)
  {
    if |s| == 0 then 0
    else
      var d := DigitValue(s[|s| - 1]);
      assert IsDigit(s[|s| - 1]);
      DigitsToNat(s[..|s| - 1]) * 10 + d
  }

  lemma {:induction false} DigitsRoundTrip(n: nat)
    ensures DigitsToNat(NatToDigits(n)) == n
    decreases n
  {
    var s := NatToDigits(n);
    if n >= 10 {
      var p := NatToDigits(n / 10);
      assert s[..|s| - 1] == p;
      DigitsRoundTrip(n / 10);
    } else {
      assert s[..|s| - 1] == [];
    }
  }

  /** A digit string with a nonzero leading digit denotes a positive number. */
  lemma {:induction false} LeadingDigitPositive(s: string)
    requires Canonical(s) && s[0] != '0'
    ensures DigitsToNat(s) > 0
  {
    if |s| > 1 {
      LeadingDigitPositive(s[..|s| - 1]);
    }
  }

  /** A canonical digit string is exactly what `NatToDigits` prints for its value. */
  lemma {:induction false} DigitsCanonical(s: string)
    requires Canonical(s)
    ensures NatToDigits(DigitsToNat(s)) == s
  {
    var p := s[..|s| - 1];
    var d := DigitValue(s[|s| - 1]);
    assert IsDigit(s[|s| - 1]);
    if |s| == 1 {
      assert DigitsToNat(s) == d;
      assert DigitChar(d) as int == s[0] as int;
    } else {
      LeadingDigitPositive(p);
      DigitsCanonical(p);
      var n := DigitsToNat(s);
      assert n == DigitsToNat(p) * 10 + d;
      assert n / 10 == DigitsToNat(p) && n % 10 == d;
      assert DigitChar(d) as int == s[|s| - 1] as int;
      assert s == p + [s[|s| - 1]];
    }
  }

  /**
    Reads back an integer in the form `toString()` prints it: an optional minus
    sign, then digits with no leading zero; "-0" is not such a form. `None` for
    anything else.
   */
  function ParseInt(s: string): Option<int> {
    if |s| > 1 && s[0] == '-' && Canonical(s[1..]) && s[1] != '0' then Some(-(DigitsToNat(s[1..]) as int))
    else if Canonical(s) then Some(DigitsToNat(s))
    else None
  }

  /** Leading zeros and a negative zero are not read back. */
  lemma LeadingZerosRejected()
    ensures ParseInt("01") == None && ParseInt("00") == None
    ensures ParseInt("-0") == None && ParseInt("-01") == None
  {
  }

  /** `id.toString()` for an integer id: an optional minus sign, then the digits. */
  function IntToString(n: int): (s: string)
    ensures ParseInt(s) == Some(n)
    ensures |s| > 0 && (AllDigits(s) <==> n >= 0)
    ensures n >= 0 ==> (s[0] == '0' <==> n == 0)
    ensures s[0] == '0' ==> s == "0"
    ensures n < 0 ==> |s| > 1 && s[0] == '-' && s[1] != '0'
  {
    if n < 0 then
      var digits := NatToDigits(-n);
      DigitsRoundTrip(-n);
      assert ("-" + digits)[1..] == digits;
      "-" + digits
    else
      DigitsRoundTrip(n);
      NatToDigits(n)
  }

  /** Only the string `toString()` prints for `n` reads back as `n`, so a parsed id pins its string. */
  lemma ParseIntCanonical(s: string, n: int)
    requires ParseInt(s) == Some(n)
    ensures s == IntToString(n)
  {
    if |s| > 1 && s[0] == '-' && Canonical(s[1..]) && s[1] != '0' {
      DigitsCanonical(s[1..]);
      LeadingDigitPositive(s[1..]);
      assert s == "-" + s[1..];
    } else {
      DigitsCanonical(s);
    }
  }

  /** Different ids never print the same way, so the id string identifies its item. */
  lemma IntToStringInjective(a: int, b: int)
    requires IntToString(a) == IntToString(b)
    ensures a == b
  {
  }
}

=== FILE: end_to_end.dfy ===
/**
  The repository's end-to-end test as lemmas: typing "test", one user and one
  repository coming back, two ArrowDowns and Enter. The mocked items are
  parameters fixed by the fields the test sets.
 */
module EndToEnd {
  import opened Wrappers
  import opened SearchResults
  import opened Autocomplete
  import opened AutocompleteHook
  import opened GithubSearch
  import opened JsString
  import NameOrder
  import Sorting

  /** The fields the test's mocked responses give their one user and one repository. */
  predicate MockedItems(user: GithubUser, repository: GithubRepository) {
    && user == GithubUser("test-user", 1, "userpage")
    && repository == GithubRepository("test-repo", 2, "repopage")
  }

  /**
    The mocked users search. The test's spy answers every query and afterwards
    checks it was called with "test"; this one answers only "test", so a listing
    built from its user shows it was asked for "test".
   */
  function MockedUsers(user: GithubUser): string -> Result<seq<GithubUser>> {
    query => if query == "test" then Ok([user]) else Err("unexpected query")
  }

  /** The mocked repositories search, answering only "test" in the same way. */
  function MockedRepositories(repository: GithubRepository): string -> Result<seq<GithubRepository>> {
    query => if query == "test" then Ok([repository]) else Err("unexpected query")
  }

  /** The widget's `getData`: the search service over the two mocked sub-searches. */
  function MockedSearch(user: GithubUser, repository: GithubRepository): string -> Result<seq<SearchResult>> {
    query => SearchGitHub(query, MockedUsers(user), MockedRepositories(repository), true)
  }

  /** One keystroke at a time. */
  const Typing: seq<Action> :=
    [InputValueChanged("t"), InputValueChanged("te"), InputValueChanged("tes"), InputValueChanged("test")]

  function Names(results: seq<SearchResult>): seq<string> {
    seq(|results|, i requires 0 <= i < |results| => results[i].name)
  }

  lemma TypedValue()
    ensures Run(InitialState, Typing).value == "test"
  {
  }

  lemma MockedResults(user: GithubUser, repository: GithubRepository)
    ensures MockedSearch(user, repository)("test") == Ok([UserResult(user), RepositoryResult(repository)])
  {
    var users, repos := MapUsers([user]), MapRepositories([repository]);
    assert users == [UserResult(user)];
    assert repos == [RepositoryResult(repository)];
    assert users + repos == [UserResult(user), RepositoryResult(repository)];
  }

  /** The name order puts "test-repo" before "test-user". */
  lemma TestNamesOrder()
    ensures !NameOrder.LexLeq("test-user", "test-repo")
  {
  }

  lemma SortTwo(a: SearchResult, b: SearchResult)
    requires !NameOrder.LexLeq(a.name, b.name)
    ensures Sorting.Sort([a, b]) == [b, a]
  {
  }

  /** Two ArrowDowns from no selection on a two-item list, then Enter, select the second item. */
  lemma TwoArrowDownsThenEnter(s: State)
    requires |s.searchResults| == 2 && s.selectedItemIndex == None
    ensures
      var moved := ApplyKeyDown(ApplyKeyDown(s, "ArrowDown"), "ArrowDown");
      && moved.selectedItemIndex == Some(1)
      && KeyDown(moved, "Enter") == Selected(Some(s.searchResults[1]))
  {
  }

  /** The search a "test" input triggers, and the listing it leaves. */
  lemma ListedAfterSearch(typed: State, user: GithubUser, repository: GithubRepository)
    requires typed.value == "test" && MockedItems(user, repository)
    ensures
      var getData := MockedSearch(user, repository);
      var actions := SearchEffect(typed, DefaultMinSearchLength, getData);
      var listed := Run(typed, actions);
      && actions == SearchActions(getData("test"))
      && listed.searchResults == [RepositoryResult(repository), UserResult(user)]
      && listed.selectedItemIndex == None
  {
    var outcome := MockedSearch(user, repository)("test");
    MockedResults(user, repository);
    TestNamesOrder();
    SortTwo(UserResult(user), RepositoryResult(repository));
    AfterSearchRuns(typed, outcome);
  }

  /** A four-code-unit input passes the default minimum, and the mocks answer it. */
  lemma TestIsSearched(user: GithubUser, repository: GithubRepository)
    ensures ScheduledQuery("test", DefaultMinSearchLength) == Some("test")
    ensures MockedSearch(user, repository)("test").Ok?
  {
    assert Utf16Length("test") == 4;
    MockedResults(user, repository);
  }

  lemma ListedNames(user: GithubUser, repository: GithubRepository)
    requires MockedItems(user, repository)
    ensures Names([RepositoryResult(repository), UserResult(user)]) == ["test-repo", "test-user"]
  {
  }

  /** Everything after the typing, for any state holding "test". */
  lemma SelectAfterTyping(typed: State, user: GithubUser, repository: GithubRepository)
    requires typed.value == "test" && MockedItems(user, repository)
    ensures
      var listed := Run(typed, SearchEffect(typed, DefaultMinSearchLength, MockedSearch(user, repository)));
      var moved := ApplyKeyDown(ApplyKeyDown(listed, "ArrowDown"), "ArrowDown");
      && Names(listed.searchResults) == ["test-repo", "test-user"]
      && moved.selectedItemIndex == Some(1)
      && KeyDown(moved, "Enter") == Selected(Some(UserResult(user)))
  {
    var listed := Run(typed, SearchEffect(typed, DefaultMinSearchLength, MockedSearch(user, repository)));
    ListedAfterSearch(typed, user, repository);
    ListedNames(user, repository);
    TwoArrowDownsThenEnter(listed);
  }

  /**
    Typing "test" schedules one search for "test"; both sub-searches answer it, so
    the listing reads "test-repo", "test-user"; two ArrowDowns and Enter hand the
    user, whose page is "userpage", to the selection callback.
   */
  lemma SearchAndSelect(user: GithubUser, repository: GithubRepository)
    requires MockedItems(user, repository)
    ensures
      var typed := Run(InitialState, Typing);
      var listed := Run(typed, SearchEffect(typed, DefaultMinSearchLength, MockedSearch(user, repository)));
      var moved := ApplyKeyDown(ApplyKeyDown(listed, "ArrowDown"), "ArrowDown");
      && ScheduledQuery(typed.value, DefaultMinSearchLength) == Some("test")
      && MockedSearch(user, repository)(typed.value).Ok?
      && Names(listed.searchResults) == ["test-repo", "test-user"]
      && moved.selectedItemIndex == Some(1)
      && KeyDown(moved, "Enter") == Selected(Some(UserResult(user)))
      && UserResult(user).url == "userpage"
  {
    TypedValue();
    TestIsSearched(user, repository);
    SelectAfterTyping(Run(InitialState, Typing), user, repository);
  }
}

=== FILE: github_search.dfy ===
/**
  The search service behind the widget: one query goes to the GitHub user search
  and the repository search, each raw item becomes a tagged `SearchResult`, and
  the two lists are joined users first. The network calls themselves are outside
  the model; their settled outcomes are inputs.
 */
module GithubSearch {
  import opened Wrappers
  import opened SearchResults
  import Decimal

  /** The fields of a user item from the users search that the service reads. */
  datatype GithubUser = GithubUser(login: string, id: int, htmlUrl: string)

  /** The fields of a repository item from the repositories search that the service reads. */
  datatype GithubRepository = GithubRepository(fullName: string, id: int, htmlUrl: string)

  function UserResult(user: GithubUser): SearchResult {
    SearchResult(Decimal.IntToString(user.id), User, user.login, user.htmlUrl)
  }

  function RepositoryResult(repository: GithubRepository): SearchResult {
    SearchResult(Decimal.IntToString(repository.id), Repository, repository.fullName, repository.htmlUrl)
  }

  /** Maps every user item, in order, to a result tagged `User`. */
  function MapUsers(items: seq<GithubUser>): (results: seq<SearchResult>)
    ensures |results| == |items|
    ensures forall i :: 0 <= i < |items| ==>
      && results[i].kind == User
      && results[i].name == items[i].login
      && results[i].url == items[i].htmlUrl
      && Decimal.ParseInt(results[i].id) == Some(items[i].id)
  {
    seq(|items|, i requires 0 <= i < |items| => UserResult(items[i]))
  }

  /** Maps every repository item, in order, to a result tagged `Repository`. */
  function MapRepositories(items: seq<GithubRepository>): (results: seq<SearchResult>)
    ensures |results| == |items|
    ensures forall i :: 0 <= i < |items| ==>
      && results[i].kind == Repository
      && results[i].name == items[i].fullName
      && results[i].url == items[i].htmlUrl
      && Decimal.ParseInt(results[i].id) == Some(items[i].id)
  {
    seq(|items|, i requires 0 <= i < |items| => RepositoryResult(items[i]))
  }

  /** Recovers the user item a result was made from, if it was made from one. */
  function AsUser(result: SearchResult): Option<GithubUser> {
    match Decimal.ParseInt(result.id)
    case Some(id) => if result.kind == User then Some(GithubUser(result.name, id, result.url)) else None
    case None => None
  }

  /** Recovers the repository item a result was made from, if it was made from one. */
  function AsRepository(result: SearchResult): Option<GithubRepository> {
    match Decimal.ParseInt(result.id)
    case Some(id) => if result.kind == Repository then Some(GithubRepository(result.name, id, result.url)) else None
    case None => None
  }

  /** The user items behind the user-tagged results of `results`, in order. */
  function UsersIn(results: seq<SearchResult>): seq<GithubUser> {
    if |results| == 0 then []
    else
      (match AsUser(results[0]) case Some(u) => [u] case None => []) + UsersIn(results[1..])
  }

  /** The repository items behind the repository-tagged results of `results`, in order. */
  function RepositoriesIn(results: seq<SearchResult>): seq<GithubRepository> {
    if |results| == 0 then []
    else
      (match AsRepository(results[0]) case Some(r) => [r] case None => []) + RepositoriesIn(results[1..])
  }

  lemma {:induction false} UsersInAppend(a: seq<SearchResult>, b: seq<SearchResult>)
    ensures UsersIn(a + b) == UsersIn(a) + UsersIn(b)
  {
    if |a| > 0 {
      assert (a + b)[1..] == a[1..] + b;
      UsersInAppend(a[1..], b);
    } else {
      assert a + b == b;
    }
  }

  lemma {:induction false} RepositoriesInAppend(a: seq<SearchResult>, b: seq<SearchResult>)
    ensures RepositoriesIn(a + b) == RepositoriesIn(a) + RepositoriesIn(b)
  {
    if |a| > 0 {
      assert (a + b)[1..] == a[1..] + b;
      RepositoriesInAppend(a[1..], b);
    } else {
      assert a + b == b;
    }
  }

  lemma AsUserResult(user: GithubUser)
    ensures AsUser(UserResult(user)) == Some(user)
    ensures AsRepository(UserResult(user)) == None
  {
    assert Decimal.ParseInt(UserResult(user).id) == Some(user.id);
  }

  lemma AsRepositoryResult(repository: GithubRepository)
    ensures AsRepository(RepositoryResult(repository)) == Some(repository)
    ensures AsUser(RepositoryResult(repository)) == None
  {
    assert Decimal.ParseInt(RepositoryResult(repository).id) == Some(repository.id);
  }

  /** Mapping users is undone by reading the user items back, and hides no repository. */
  lemma {:induction false} MapUsersInverse(items: seq<GithubUser>)
    ensures UsersIn(MapUsers(items)) == items
    ensures RepositoriesIn(MapUsers(items)) == []
  {
    if |items| > 0 {
      var mapped := MapUsers(items);
      assert mapped[1..] == MapUsers(items[1..]);
      MapUsersInverse(items[1..]);
      assert UsersIn(mapped) == [items[0]] + UsersIn(mapped[1..]) && RepositoriesIn(mapped) == RepositoriesIn(mapped[1..]) by {
        assert mapped[0] == UserResult(items[0]);
        AsUserResult(items[0]);
      }
      assert items == [items[0]] + items[1..];
    }
  }

  /** Mapping repositories is undone by reading the repository items back, and hides no user. */
  lemma {:induction false} MapRepositoriesInverse(items: seq<GithubRepository>)
    ensures RepositoriesIn(MapRepositories(items)) == items
    ensures UsersIn(MapRepositories(items)) == []
  {
    if |items| > 0 {
      var mapped := MapRepositories(items);
      assert mapped[1..] == MapRepositories(items[1..]);
      MapRepositoriesInverse(items[1..]);
      assert RepositoriesIn(mapped) == [items[0]] + RepositoriesIn(mapped[1..]) && UsersIn(mapped) == UsersIn(mapped[1..]) by {
        assert mapped[0] == RepositoryResult(items[0]);
        AsRepositoryResult(items[0]);
      }
      assert items == [items[0]] + items[1..];
    }
  }

  /** Splitting the joined list by origin gives back both item lists unchanged. */
  lemma SplitJoined(users: seq<GithubUser>, repositories: seq<GithubRepository>)
    ensures UsersIn(MapUsers(users) + MapRepositories(repositories)) == users
    ensures RepositoriesIn(MapUsers(users) + MapRepositories(repositories)) == repositories
  {
    UsersInAppend(MapUsers(users), MapRepositories(repositories));
    RepositoriesInAppend(MapUsers(users), MapRepositories(repositories));
    MapUsersInverse(users);
    MapRepositoriesInverse(repositories);
  }

  /**
    `searchGitHub`: both sub-searches are asked for `query` and the outcome is
    built from their answers alone. `Promise.all` rejects with the first
    rejection to happen; `usersRejectFirst` says which one that is when both
    requests fail.
   */
  function SearchGitHub(
    query: string,
    searchUsers: string -> Result<seq<GithubUser>>,
    searchRepositories: string -> Result<seq<GithubRepository>>,
    usersRejectFirst: bool
  ): (r: Result<seq<SearchResult>>)
    ensures r.Ok? <==> searchUsers(query).Ok? && searchRepositories(query).Ok?
    ensures r.Ok? ==> |r.value| == |searchUsers(query).value| + |searchRepositories(query).value|
    ensures r.Ok? ==> forall i :: 0 <= i < |r.value| ==>
      (r.value[i].kind == User <==> i < |searchUsers(query).value|)
    ensures r.Ok? ==>
      UsersIn(r.value) == searchUsers(query).value && RepositoriesIn(r.value) == searchRepositories(query).value
    ensures r.Ok? ==> r.value == MapUsers(searchUsers(query).value) + MapRepositories(searchRepositories(query).value)
    ensures searchUsers(query).Err? && (searchRepositories(query).Ok? || usersRejectFirst) ==>
      r == Err(searchUsers(query).error)
    ensures searchRepositories(query).Err? && (searchUsers(query).Ok? || !usersRejectFirst) ==>
      r == Err(searchRepositories(query).error)
  {
    var users := searchUsers(query);
    var repositories := searchRepositories(query);
    if users.Err? && (repositories.Ok? || usersRejectFirst) then Err(users.error)
    else if repositories.Err? then Err(repositories.error)
    else
      SplitJoined(users.value, repositories.value);
      Ok(MapUsers(users.value) + MapRepositories(repositories.value))
  }

  /**
    Both sub-searches receive the same query: the outcome depends on the two
    search functions only through what they answer for `query`.
   */
  lemma SearchGitHubAsksForQuery(
    query: string,
    searchUsers: string -> Result<seq<GithubUser>>,
    searchRepositories: string -> Result<seq<GithubRepository>>,
    otherUsers: string -> Result<seq<GithubUser>>,
    otherRepositories: string -> Result<seq<GithubRepository>>,
    usersRejectFirst: bool)
    requires searchUsers(query) == otherUsers(query)
    requires searchRepositories(query) == otherRepositories(query)
    ensures SearchGitHub(query, searchUsers, searchRepositories, usersRejectFirst)
      == SearchGitHub(query, otherUsers, otherRepositories, usersRejectFirst)
  {
  }
}

=== FILE: hook.dfy ===
/**
  The decisions the `useAutocomplete` hook takes around its reducer, lifted out
  as pure functions: which key codes it handles, what a key press does, whether
  an input value schedules a search, which actions a search dispatches, and the
  flags and highlighting it derives from the state. Timers, DOM events and the
  data source are parameters or left out.
 */
module AutocompleteHook {
  import opened Wrappers
  import opened SearchResults
  import opened Sorting
  import opened Autocomplete
  import opened JsString

  /** `minSearchLength` when the caller gives none. */
  const DefaultMinSearchLength := 3

  /** The message a failed search stores; the failure's own reason is dropped. */
  const FetchErrorMessage := "Error fetching search results. Please try again."

  /** `ALLOWED_KEY_CODES`. */
  const AllowedKeyCodes: seq<string> := ["ArrowDown", "ArrowUp", "Enter"]

  /** `isNavigationCode`. */
  predicate IsNavigationCode(code: string) {
    code in AllowedKeyCodes
  }

  /** The `KeyboardEvent.code` of a navigation key. */
  function KeyCode(key: NavigationKey): string {
    match key
    case ArrowDown => "ArrowDown"
    case ArrowUp => "ArrowUp"
    case Enter => "Enter"
  }

  /** The navigation key a code names, if it names one. */
  function ParseNavigationCode(code: string): (key: Option<NavigationKey>)
    ensures key.Some? <==> IsNavigationCode(code)
    ensures key.Some? ==> KeyCode(key.value) == code
  {
    if code == "ArrowDown" then Some(ArrowDown)
    else if code == "ArrowUp" then Some(ArrowUp)
    else if code == "Enter" then Some(Enter)
    else None
  }

  lemma KeyCodeRoundTrip(key: NavigationKey)
    ensures IsNavigationCode(KeyCode(key))
    ensures ParseNavigationCode(KeyCode(key)) == Some(key)
  {
  }

  /** JavaScript's `results[i]`: the item, or `undefined` outside the list. */
  function ItemAt(results: seq<SearchResult>, i: int): (item: Option<SearchResult>)
    ensures item.Some? <==> 0 <= i < |results|
    ensures item.Some? ==> item.value in results
  {
    if 0 <= i < |results| then Some(results[i]) else None
  }

  /**
    What a key press does: nothing (the default action is not prevented either),
    hand an item to `onSelect`, or dispatch a navigation action.
   */
  datatype KeyDownOutcome =
    | Ignored
    | Selected(item: Option<SearchResult>)
    | Dispatched(action: Action)

  /** The decision in `handleInputKeyDown`. */
  function KeyDown(s: State, code: string): (o: KeyDownOutcome)
    ensures o.Ignored? <==> !IsNavigationCode(code)
    ensures o.Selected? <==> code == KeyCode(Enter) && s.selectedItemIndex.Some?
    ensures o.Selected? && Valid(s) ==> o.item == Some(s.searchResults[s.selectedItemIndex.value])
    ensures o.Selected? && !Valid(s) ==> o.item == None
    ensures o.Dispatched? ==> o.action.SelectedItemChanged? && KeyCode(o.action.key) == code
  {
    match ParseNavigationCode(code)
    case None => Ignored
    case Some(key) =>
      if key == Enter && s.selectedItemIndex.Some? then
        Selected(ItemAt(s.searchResults, s.selectedItemIndex.value))
      else
        Dispatched(SelectedItemChanged(key))
  }

  /** The state after a key press. */
  function ApplyKeyDown(s: State, code: string): (r: State)
    ensures !IsNavigationCode(code) ==> r == s
    ensures code == KeyCode(Enter) ==> r == s
    ensures code == KeyCode(ArrowDown) && |s.searchResults| > 0 && Valid(s) ==>
      && Valid(r)
      && r == s.(selectedItemIndex := Some(
        if s.selectedItemIndex.None? then 0
        else (s.selectedItemIndex.value + 1) % |s.searchResults|))
    ensures code == KeyCode(ArrowUp) && |s.searchResults| > 0 && Valid(s) ==>
      && Valid(r)
      && r == s.(selectedItemIndex := Some(
        if s.selectedItemIndex.None? then |s.searchResults| - 1
        else (s.selectedItemIndex.value - 1) % |s.searchResults|))
  {
    match KeyDown(s, code)
    case Dispatched(a) => Reduce(s, a)
    case _ => s
  }

  /**
    The query the input effect schedules a search for, if any. The guard compares
    the JavaScript length, in UTF-16 code units, with the minimum.
   */
  function ScheduledQuery(value: string, minSearchLength: int): (query: Option<string>)
    ensures query.Some? <==> Utf16Length(value) >= minSearchLength
    ensures query.Some? ==> query.value == value
  {
    if Utf16Length(value) < minSearchLength then None else Some(value)
  }

  /** Two emoji already reach the default minimum: their JavaScript length is 4. */
  lemma AstralInputSchedulesSearch()
    ensures ScheduledQuery("\U{1F600}\U{1F600}", DefaultMinSearchLength) == Some("\U{1F600}\U{1F600}")
  {
    AstralCharsCountTwice();
  }

  /** The actions the timer callback dispatches once `getData` has settled with `outcome`. */
  function SearchActions(outcome: Result<seq<SearchResult>>): (actions: seq<Action>)
    ensures |actions| == 2 && actions[0] == SearchLoading
    ensures actions[1].SearchSuccess? <==> outcome.Ok?
    ensures outcome.Ok? ==> actions[1].payload == outcome.value
    ensures outcome.Err? ==> actions[1] == SearchError(FetchErrorMessage)
  {
    [SearchLoading, if outcome.Ok? then SearchSuccess(outcome.value) else SearchError(FetchErrorMessage)]
  }

  /**
    The actions the input effect leads to for state `s`: none below the minimum
    length, otherwise one search cycle for the current value.
   */
  function SearchEffect(
    s: State,
    minSearchLength: int,
    getData: string -> Result<seq<SearchResult>>
  ): (actions: seq<Action>)
    ensures Utf16Length(s.value) < minSearchLength ==> actions == []
    ensures Utf16Length(s.value) >= minSearchLength ==> actions == SearchActions(getData(s.value))
  {
    match ScheduledQuery(s.value, minSearchLength)
    case None => []
    case Some(query) => SearchActions(getData(query))
  }

  /** A search cycle, from any state, ends with no selection and the invariant restored. */
  function AfterSearch(s: State, outcome: Result<seq<SearchResult>>): (t: State)
    ensures t.value == s.value
    ensures t.selectedItemIndex == None && Valid(t)
    ensures outcome.Ok? ==>
      && t.status == Success
      && t.error == None
      && SortedByName(t.searchResults)
      && multiset(t.searchResults) == multiset(outcome.value)
    ensures outcome.Err? ==>
      t.status == Error && t.error == Some(FetchErrorMessage) && t.searchResults == []
  {
    var actions := SearchActions(outcome);
    var loading := Reduce(s, actions[0]);
    assert actions[1..][1..] == [];
    Reduce(loading, actions[1])
  }

  lemma AfterSearchRuns(s: State, outcome: Result<seq<SearchResult>>)
    ensures Run(s, SearchActions(outcome)) == AfterSearch(s, outcome)
  {
    var actions := SearchActions(outcome);
    var loading := Reduce(s, actions[0]);
    assert actions[1..] == [actions[1]];
    assert Run(loading, [actions[1]]) == Run(Reduce(loading, actions[1]), []);
  }

  /** Running the input effect's actions: below the minimum nothing changes, otherwise one search cycle for the current value. */
  lemma SearchEffectRuns(s: State, minSearchLength: int, getData: string -> Result<seq<SearchResult>>)
    ensures Run(s, SearchEffect(s, minSearchLength, getData))
      == if Utf16Length(s.value) < minSearchLength then s else AfterSearch(s, getData(s.value))
  {
    if Utf16Length(s.value) >= minSearchLength {
      AfterSearchRuns(s, getData(s.value));
    }
  }

  /** `isLoading`, `isSuccess` and `isError`. */
  datatype StatusFlags = StatusFlags(isLoading: bool, isSuccess: bool, isError: bool)

  function Flags(s: State): (f: StatusFlags)
    ensures f.isLoading <==> s.status == Loading
    ensures f.isSuccess <==> s.status == Success
    ensures f.isError <==> s.status == Error
    ensures !(f.isLoading && f.isSuccess) && !(f.isLoading && f.isError) && !(f.isSuccess && f.isError)
    ensures (f.isLoading || f.isSuccess || f.isError) <==> s.status != Initial
  {
    StatusFlags(s.status == Loading, s.status == Success, s.status == Error)
  }

  /** The flags through a search: loading once it starts, then success or error by the outcome. */
  lemma FlagsThroughSearch(s: State, outcome: Result<seq<SearchResult>>)
    ensures Flags(Reduce(s, SearchLoading)) == StatusFlags(true, false, false)
    ensures Flags(AfterSearch(s, outcome)) == StatusFlags(false, outcome.Ok?, outcome.Err?)
  {
  }

  /** The list positions drawn highlighted by `getListItemProps`. */
  function HighlightedPositions(s: State): (positions: set<int>)
    ensures |positions| <= 1
    ensures Valid(s) ==> (|positions| == 1 <==> s.selectedItemIndex.Some?)
    ensures forall i :: i in positions <==> 0 <= i < |s.searchResults| && s.selectedItemIndex == Some(i)
    ensures forall i :: i in positions ==> ItemAt(s.searchResults, i).Some?
  {
    if s.selectedItemIndex.Some? && 0 <= s.selectedItemIndex.value < |s.searchResults|
    then {s.selectedItemIndex.value}
    else {}
  }

  /** The highlight follows the keyboard: after ArrowDown on a non-empty list exactly the next item is highlighted. */
  lemma HighlightFollowsArrowDown(s: State)
    requires |s.searchResults| > 0 && Valid(s)
    ensures HighlightedPositions(ApplyKeyDown(s, "ArrowDown"))
      == {if s.selectedItemIndex.None? then 0 else (s.selectedItemIndex.value + 1) % |s.searchResults|}
  {
  }
}

=== FILE: index_validity.dfy ===
/**
  Two ways the reducer as written lets `selectedItemIndex` point outside
  `searchResults`, after which Enter hands `undefined` to `onSelect`; and a
  corrected reducer that keeps the index valid after every action.
 */
module IndexValidity {
  import opened Wrappers
  import opened SearchResults
  import opened Autocomplete
  import opened AutocompleteHook

  /**
    With nothing listed (a value below the minimum length, say), ArrowDown selects
    position 0 and ArrowUp position -1; Enter then selects an item that is not there.
   */
  lemma EmptyListNavigation()
    ensures
      var typed := Reduce(InitialState, InputValueChanged("ab"));
      var down := ApplyKeyDown(typed, "ArrowDown");
      var up := ApplyKeyDown(typed, "ArrowUp");
      && Valid(typed)
      && down.selectedItemIndex == Some(0) && !Valid(down)
      && up.selectedItemIndex == Some(-1) && !Valid(up)
      && KeyDown(down, "Enter") == Selected(None)
      && KeyDown(up, "Enter") == Selected(None)
  {
  }

  /** Past the end of the list ArrowDown never wraps: each press moves one position further off. */
  lemma {:induction false} DownDriftsOffList(presses: nat, i: int, length: nat)
    requires i >= length
    ensures PressRepeatedly(ArrowDown, presses, Some(i), length) == Some(i + presses)
  {
    if presses > 0 {
      DownDriftsOffList(presses - 1, i, length);
    }
  }

  /** Before the start of the list ArrowUp never wraps: each press moves one position further off. */
  lemma {:induction false} UpDriftsOffList(presses: nat, i: int, length: nat)
    requires i < 0
    ensures PressRepeatedly(ArrowUp, presses, Some(i), length) == Some(i - presses)
  {
    if presses > 0 {
      UpDriftsOffList(presses - 1, i, length);
    }
  }

  /** On an empty list, two ArrowDowns select 1 and two ArrowUps select -2. */
  lemma EmptyListDrift()
    ensures PressRepeatedly(ArrowDown, 2, None, 0) == Some(1)
    ensures PressRepeatedly(ArrowUp, 2, None, 0) == Some(-2)
  {
  }

  /**
    An ArrowDown pressed while a search is loading selects from the previous list;
    SEARCH_SUCCESS then replaces the list but keeps that index.
   */
  lemma StaleIndexAfterSuccess(first: SearchResult, second: SearchResult)
    ensures
      var listed := InitialState.(value := "test", status := Success, searchResults := [first, second]);
      var loading := Reduce(listed, SearchLoading);
      var moved := ApplyKeyDown(loading, "ArrowDown");
      var done := Reduce(moved, SearchSuccess([]));
      && Valid(listed) && Valid(loading) && Valid(moved)
      && done.selectedItemIndex == Some(0) && !Valid(done)
      && KeyDown(done, "Enter") == Selected(None)
  {
  }

  /** Index arithmetic that leaves the selection empty when nothing is listed. */
  function GuardedSelectedItemIndex(key: NavigationKey, prevIndex: Option<int>, length: nat): (r: Option<int>)
    ensures IndexValid(prevIndex, length) ==> IndexValid(r, length)
    ensures length == 0 ==> r == None
    ensures length > 0 ==> r == SelectedItemIndexAfter(key, prevIndex, length)
  {
    if length == 0 then None else SelectedItemIndexAfter(key, prevIndex, length)
  }

  /**
    The reducer with both corrections: navigation on an empty list selects
    nothing, and SEARCH_SUCCESS clears the selection along with the list it
    replaces. Every other transition is the one the code performs.
   */
  function ReduceIntended(s: State, a: Action): (r: State)
    ensures Valid(s) ==> Valid(r)
    ensures a.SearchSuccess? ==> r == Reduce(s, a).(selectedItemIndex := None)
    ensures a.SelectedItemChanged? && |s.searchResults| == 0 ==> r == s.(selectedItemIndex := None)
    ensures !a.SearchSuccess? && !(a.SelectedItemChanged? && |s.searchResults| == 0) ==> r == Reduce(s, a)
  {
    match a
    case SearchSuccess(_) => Reduce(s, a).(selectedItemIndex := None)
    case SelectedItemChanged(key) =>
      s.(selectedItemIndex := GuardedSelectedItemIndex(key, s.selectedItemIndex, |s.searchResults|))
    case _ => Reduce(s, a)
  }

  function RunIntended(s: State, actions: seq<Action>): State
    decreases |actions|
  {
    if |actions| == 0 then s else RunIntended(ReduceIntended(s, actions[0]), actions[1..])
  }

  /** Under the corrected reducer every reachable state satisfies the invariant. */
  lemma {:induction false} IntendedRunKeepsInvariant(s: State, actions: seq<Action>)
    requires Valid(s)
    ensures Valid(RunIntended(s, actions))
    decreases |actions|
  {
    if |actions| > 0 {
      IntendedRunKeepsInvariant(ReduceIntended(s, actions[0]), actions[1..]);
    }
  }

  /** Hence, under the corrected reducer, Enter only ever hands a listed item to `onSelect`. */
  lemma IntendedSelectionIsListed(actions: seq<Action>, code: string)
    ensures
      var s := RunIntended(InitialState, actions);
      KeyDown(s, code).Selected? ==> KeyDown(s, code).item.Some?
  {
    IntendedRunKeepsInvariant(InitialState, actions);
  }

  /** On the timer's own path, LOADING then SUCCESS or ERROR, the correction changes nothing. */
  lemma IntendedAgreesOnSearch(s: State, outcome: Result<seq<SearchResult>>)
    ensures RunIntended(s, SearchActions(outcome)) == Run(s, SearchActions(outcome))
  {
    var actions := SearchActions(outcome);
    assert actions[1..] == [actions[1]];
    var loading := Reduce(s, actions[0]);
    assert RunIntended(loading, [actions[1]]) == RunIntended(ReduceIntended(loading, actions[1]), []);
    assert Run(loading, [actions[1]]) == Run(Reduce(loading, actions[1]), []);
  }
}

=== FILE: js_string.dfy ===
/** JavaScript's view of a string's length. */
module JsString {

  /** A character outside the Basic Multilingual Plane, stored as a UTF-16 surrogate pair. */
  predicate IsAstral(c: char) {
    c as int >= 0x1_0000
  }

  /** `String.prototype.length`: the number of UTF-16 code units. */
  function Utf16Length(s: string): (n: nat)
    ensures |s| <= n <= 2 * |s|
    ensures n == 0 <==> |s| == 0
    ensures (forall i :: 0 <= i < |s| ==> !IsAstral(s[i])) ==> n == |s|
    ensures |s| == 1 ==> n == (if IsAstral(s[0]) then 2 else 1)
  {
    if |s| == 0 then 0 else (if IsAstral(s[0]) then 2 else 1) + Utf16Length(s[1..])
  }

  /** Code units add up over concatenation; with the one-character case this fixes every length. */
  lemma {:induction false} Utf16LengthAppend(a: string, b: string)
    ensures Utf16Length(a + b) == Utf16Length(a) + Utf16Length(b)
  {
    if |a| == 0 {
      assert a + b == b;
    } else {
      assert (a + b)[0] == a[0];
      assert (a + b)[1..] == a[1..] + b;
      Utf16LengthAppend(a[1..], b);
    }
  }

  /** A letter and an emoji: two characters, three code units. */
  lemma MixedLength()
    ensures Utf16Length("a\U{1F600}") == 3
  {
    assert "a\U{1F600}"[1..] == "\U{1F600}";
  }

  /** Two emoji are two characters but four code units. */
  lemma AstralCharsCountTwice()
    ensures |"\U{1F600}\U{1F600}"| == 2
    ensures Utf16Length("\U{1F600}\U{1F600}") == 4
  {
    assert "\U{1F600}\U{1F600}"[1..] == "\U{1F600}";
    assert "\U{1F600}"[1..] == "";
  }
}

=== FILE: name_order.dfy ===
/**
  The order results are sorted in: lexicographic comparison of names by
  character code, standing in for `String.prototype.localeCompare`.
 */
module NameOrder {

  /** `a` sorts no later than `b`. */
  predicate LexLeq(a: string, b: string) {
    |a| == 0 || (|b| > 0 && (a[0] < b[0] || (a[0] == b[0] && LexLeq(a[1..], b[1..]))))
  }

  lemma {:induction false} LexLeqReflexive(a: string)
    ensures LexLeq(a, a)
  {
    if |a| > 0 {
      LexLeqReflexive(a[1..]);
    }
  }

  lemma {:induction false} LexLeqTotal(a: string, b: string)
    ensures LexLeq(a, b) || LexLeq(b, a)
  {
    if |a| > 0 && |b| > 0 && a[0] == b[0] {
      LexLeqTotal(a[1..], b[1..]);
    }
  }

  lemma {:induction false} LexLeqTransitive(a: string, b: string, c: string)
    requires LexLeq(a, b) && LexLeq(b, c)
    ensures LexLeq(a, c)
  {
    if |a| > 0 && |b| > 0 && |c| > 0 && a[0] == b[0] && b[0] == c[0] {
      LexLeqTransitive(a[1..], b[1..], c[1..]);
    }
  }

  lemma {:induction false} LexLeqAntisymmetric(a: string, b: string)
    requires LexLeq(a, b) && LexLeq(b, a)
    ensures a == b
  {
    if |a| > 0 && |b| > 0 {
      LexLeqAntisymmetric(a[1..], b[1..]);
      assert a == [a[0]] + a[1..];
      assert b == [b[0]] + b[1..];
    }
  }
}

=== FILE: search_result.dfy ===
/** The items the autocomplete lists: GitHub users and repositories, tagged by origin. */
module SearchResults {

  datatype ResultKind = User | Repository

  /**
    A listed item. `id` and `name` are the fields the autocomplete itself relies on
    (name is the display text and the sort key); `kind` and `url` are the GitHub
    extension of that shape.
   */
  datatype SearchResult = SearchResult(id: string, kind: ResultKind, name: string, url: string)
}

=== FILE: sorting.dfy ===
/**
  The ordering SEARCH_SUCCESS applies to a copy of its payload: a stable sort of
  search results by name. Stability is what ECMAScript (since its 2019 edition)
  promises of `Array.prototype.sort`.
 */
module Sorting {
  import opened SearchResults
  import opened NameOrder

  predicate SortedByName(s: seq<SearchResult>) {
    forall i, j :: 0 <= i < j < |s| ==> LexLeq(s[i].name, s[j].name)
  }

  /** The results named exactly `name`, in the order they occur in `s`. */
  function WithName(s: seq<SearchResult>, name: string): seq<SearchResult> {
    if |s| == 0 then []
    else (if s[0].name == name then [s[0]] else []) + WithName(s[1..], name)
  }

  lemma PrependSorted(x: SearchResult, s: seq<SearchResult>)
    requires SortedByName(s) && |s| > 0 && LexLeq(x.name, s[0].name)
    ensures SortedByName([x] + s)
  {
    forall j | 0 <= j < |s|
      ensures LexLeq(x.name, s[j].name)
    {
      if j > 0 {
        LexLeqTransitive(x.name, s[0].name, s[j].name);
      }
    }
  }

  lemma PrependLowerBound(h: SearchResult, x: SearchResult, rest: seq<SearchResult>, t: seq<SearchResult>)
    requires SortedByName([h] + rest) && SortedByName(t)
    requires LexLeq(h.name, x.name)
    requires multiset(t) == multiset(rest) + multiset{x}
    ensures SortedByName([h] + t)
  {
    forall j | 0 <= j < |t|
      ensures LexLeq(h.name, t[j].name)
    {
      assert t[j] in multiset(t);
      if t[j] != x {
        assert t[j] in multiset(rest);
        var k :| 0 <= k < |rest| && rest[k] == t[j];
        assert ([h] + rest)[0] == h && ([h] + rest)[k + 1] == rest[k];
      }
    }
  }

  /** Inserts `x` in front of the first result of `s` it does not sort after. */
  function Insert(x: SearchResult, s: seq<SearchResult>): seq<SearchResult> {
    if |s| == 0 then [x]
    else if LexLeq(x.name, s[0].name) then [x] + s
    else [s[0]] + Insert(x, s[1..])
  }

  lemma {:induction false} InsertPermutes(x: SearchResult, s: seq<SearchResult>)
    ensures multiset(Insert(x, s)) == multiset(s) + multiset{x}
  {
    if |s| > 0 && !LexLeq(x.name, s[0].name) {
      InsertPermutes(x, s[1..]);
      assert s == [s[0]] + s[1..];
    }
  }

  /** Inserting into a sorted list keeps it sorted. */
  lemma {:induction false} InsertSorted(x: SearchResult, s: seq<SearchResult>)
    requires SortedByName(s)
    ensures SortedByName(Insert(x, s))
  {
    if |s| > 0 {
      if LexLeq(x.name, s[0].name) {
        PrependSorted(x, s);
      } else {
        assert s == [s[0]] + s[1..];
        InsertSorted(x, s[1..]);
        InsertPermutes(x, s[1..]);
        LexLeqTotal(x.name, s[0].name);
        PrependLowerBound(s[0], x, s[1..], Insert(x, s[1..]));
      }
    }
  }

  /** Insertion sort: sorted by name and a permutation of its input. */
  function Sort(s: seq<SearchResult>): (r: seq<SearchResult>)
    ensures SortedByName(r)
    ensures multiset(r) == multiset(s)
  {
    if |s| == 0 then []
    else
      assert s == [s[0]] + s[1..];
      var rest := Sort(s[1..]);
      InsertSorted(s[0], rest);
      InsertPermutes(s[0], rest);
      Insert(s[0], rest)
  }

  lemma WithNameCons(x: SearchResult, s: seq<SearchResult>, name: string)
    ensures WithName([x] + s, name) == (if x.name == name then [x] else []) + WithName(s, name)
  {
    assert ([x] + s)[1..] == s;
  }

  lemma {:induction false} InsertStable(x: SearchResult, s: seq<SearchResult>, name: string)
    ensures WithName(Insert(x, s), name) == WithName([x] + s, name)
  {
    if |s| > 0 && !LexLeq(x.name, s[0].name) {
      var h, rest := s[0], s[1..];
      var t := Insert(x, rest);
      assert Insert(x, s) == [h] + t;
      assert s == [h] + rest;
      InsertStable(x, rest, name);
      WithNameCons(h, t, name);
      WithNameCons(x, rest, name);
      WithNameCons(h, rest, name);
      WithNameCons(x, s, name);
      if x.name == name {
        LexLeqReflexive(name);
        assert h.name != name;
        assert WithName(Insert(x, s), name) == WithName(t, name);
        assert WithName([x] + s, name) == [x] + WithName(rest, name);
      } else {
        assert WithName([x] + s, name) == WithName(s, name);
      }
    }
  }

  /** Results with equal names keep their input order. */
  lemma {:induction false} SortStable(s: seq<SearchResult>, name: string)
    ensures WithName(Sort(s), name) == WithName(s, name)
  {
    if |s| > 0 {
      SortStable(s[1..], name);
      InsertStable(s[0], Sort(s[1..]), name);
      WithNameCons(s[0], Sort(s[1..]), name);
      WithNameCons(s[0], s[1..], name);
      assert s == [s[0]] + s[1..];
    }
  }
}

=== FILE: wrappers.dfy ===
/** Optional values and fallible outcomes used throughout the model. */
module Wrappers {

  /** A value that may be absent: JavaScript's `null` (or `undefined`) becomes `None`. */
  datatype Option<+T> = None | Some(value: T)

  /** The settled state of a promise: fulfilled with a value, or rejected with a reason. */
  datatype Result<+T> = Ok(value: T) | Err(error: string)
}
